=== FILE: README.md ===
# dbc4java ValidationInterceptor in Dafny

dbc4java adds design-by-contract checks to Java classes. Its `ValidationInterceptor` aspect runs before and after intercepted executions. It hands constraint evaluation to a Bean Validation (JSR 380) engine. This project models the logic the interceptor owns:

- **Parameter checks before a method or constructor runs.** `validateMethodInvocation` checks method parameters. It skips the check for a null target, a null method, or a null or empty argument array. `validateConstructorParameters` checks constructor parameters.
- **Return-value checks after a method returns.** `after` skips the check for a null target, a null method or a `void` method.
- **Invariant checks.** These run after an execution, and only when the target's runtime class is the declaring type of the executed method or constructor. That skips an object still inside a superclass constructor, and also an inherited, non-overridden method executed on a subclass instance, whose declaring type is the superclass.
- **The re-entrancy guard of the invariant check.** The interceptor keeps the set `invariantChecksInProgress`. An instance goes in before the engine validates it and comes out on every way out. A nested check of an instance already in the set does nothing.
- **Exception handling.** The check classifies engine exceptions. One whose message contains `HV000090` is rewrapped with the original as its cause. Any other propagates unchanged. A non-empty violation set becomes a `ConstraintViolationException`.

Files:

- `validation.dfy` (module `Validation`) holds the value types. Join points are records whose fields stand for reflection results. The engine is a `Validator` record of oracle functions. An `Outcome` is a normal return or one of the two exceptions. `Reflects` is the relation "the outcome passes on exactly what the engine reported".
- `text.dfy` (module `Text`) holds `String.contains`. It is proved equal to "occurs at some offset".
- `advice.dfy` (module `Advice`) holds the stateless advice as functions: the parameter checks, the return-value check and the decision which object gets an invariant check.
- `interceptor.dfy` (module `Interceptor`) holds the class `ValidationInterceptor`. Its field `inProgress` is the in-progress set. `CheckInvariants` and `ValidateInvariants` are methods that update that field.

The engine's `validate(x)` is modelled as an `EngineRun`. It lists the intercepted getter executions the engine triggers while validating `x`. Each of them runs the invariant advice again, as a nested call. The engine's final result is `result`. Each check returns a trace of the engine calls it made, with the in-progress set at each call. This is what lets the contracts say "no engine call".

The nested recursion terminates whenever the objects whose invariants getters ask for are finitely many. Only getter executions that pass the fully-constructed gate count: a getter whose target's runtime class differs from its declaring type is skipped, and its target may lie anywhere. The proof measures the live objects of a finite ghost `heap`, closed under those gated getters, that are not yet in progress; every entered check lowers that count. The guard only cuts cycles through objects already in progress: it does not bound recursion over objects that getters keep creating (see `FreshObjectsNeverClosed` and "## Left out").

The set is a `HashSet`, so membership is decided by `equals`. The model uses value equality of `Instance`. That also stands for reference identity wherever `equals` is not overridden.

## Model

| member | source | states |
|---|---|---|
| `Validation.Enforce` | dbc4java/src/main/java/org/uniknow/agiledev/dbc4java/ValidationInterceptor.java:103-106 | The outcome reflects the engine result: a normal return exactly for an empty set, a `ConstraintViolation` carrying exactly the (non-empty) engine set, and an engine exception unchanged. |
| `Validation.ReflectsUnique` | dbc4java/src/main/java/org/uniknow/agiledev/dbc4java/ValidationInterceptor.java:140-142 | For each engine result at most one outcome reflects it, so "throw iff violations, with exactly those violations" determines the advice's outcome. |
| `Text.Contains` | dbc4java/src/main/java/org/uniknow/agiledev/dbc4java/ValidationInterceptor.java:125 | The substring test on the exception message; a match implies the message is at least as long as the code. |
| `Text.ContainsIff` | dbc4java/src/main/java/org/uniknow/agiledev/dbc4java/ValidationInterceptor.java:125 | The search reports true exactly when the searched text occurs at some offset of the message. |
| `Text.ContainsInfix` | dbc4java/src/main/java/org/uniknow/agiledev/dbc4java/ValidationInterceptor.java:125 | Any text with a prefix and a suffix around the code contains the code. |
| `Advice.ValidateMethodInvocation` | dbc4java/src/main/java/org/uniknow/agiledev/dbc4java/ValidationInterceptor.java:152-175 | A null target, null method, or null or empty argument array gives a normal return. Otherwise the outcome reflects `validateParameters` on that target, method and arguments, so it throws iff the violations are non-empty. |
| `Advice.After` | dbc4java/src/main/java/org/uniknow/agiledev/dbc4java/ValidationInterceptor.java:183-207 | A null target, a null method or a `void` return type gives a normal return. Otherwise the outcome reflects `validateReturnValue` on the returned value, so it throws iff the violations are non-empty. |
| `Advice.ValidateConstructorParameters` | dbc4java/src/main/java/org/uniknow/agiledev/dbc4java/ValidationInterceptor.java:93-108 | Always consults `validateConstructorParameters` and throws a `ConstraintViolation` iff the returned set is non-empty; engine exceptions pass unchanged. |
| `Advice.InvariantTarget` | dbc4java/src/main/java/org/uniknow/agiledev/dbc4java/ValidationInterceptor.java:216-220 | An invariant check is asked for exactly when the target is non-null and its runtime class equals the declaring type, and then for that target. |
| `Advice.SkippedChecksIgnoreEngine` | dbc4java/src/main/java/org/uniknow/agiledev/dbc4java/ValidationInterceptor.java:159-205 | When a parameter or return-value check is skipped, the result is the same normal return for any two validators: the engine is not consulted. |
| `Advice.VoidResultNeverValidated` | dbc4java/src/main/java/org/uniknow/agiledev/dbc4java/ValidationInterceptor.java:194 | A `void` method with a non-null target is never return-value checked, whatever its result. |
| `Interceptor.InvariantOutcome` | dbc4java/src/main/java/org/uniknow/agiledev/dbc4java/ValidationInterceptor.java:124-142 | Violations are enforced as for the other advice. An engine exception whose message contains `HV000090` becomes a new `ValidationException`: its cause is the original and its message starts with "Unable to validate post conditions for " and names the instance. Any other engine exception propagates unchanged. |
| `Interceptor.AmbiguousPathRewrapped` | dbc4java/src/main/java/org/uniknow/agiledev/dbc4java/ValidationInterceptor.java:125-132 | Whatever text surrounds `HV000090` in the engine's message, the exception is rewrapped with the original as its cause. |
| `Interceptor.RemainingShrinks` | dbc4java/src/main/java/org/uniknow/agiledev/dbc4java/ValidationInterceptor.java:117 | Helper for the termination measure of the nested checks, not a model of the lines: a successful `add` of a live object strictly lowers the number of live objects not yet in progress. |
| `Interceptor.FreshObjectValidator` | dbc4java/src/main/java/org/uniknow/agiledev/dbc4java/ValidationInterceptor.java:213-221 | An engine whose getter on object `n` yields a newly constructed object `n + 1` of the same class, whose constructor execution asks for its invariants; every object's getter list contains that next object. |
| `Interceptor.ChainInHeap` | dbc4java/src/main/java/org/uniknow/agiledev/dbc4java/ValidationInterceptor.java:117-122 | A step of the proof by contradiction in `FreshObjectsNeverClosed`: a set containing object 0 and closed under that engine would have to contain every object of the chain (no finite set is). |
| `Interceptor.FreshObjectsNeverClosed` | dbc4java/src/main/java/org/uniknow/agiledev/dbc4java/ValidationInterceptor.java:114-146 | No finite set of live objects containing object 0 is closed under that engine, so the termination proof of `CheckInvariants` excludes it: on it each `add` succeeds and the source's nested checks never end. |
| `Interceptor.ValidationInterceptor.constructor` | dbc4java/src/main/java/org/uniknow/agiledev/dbc4java/ValidationInterceptor.java:77-81 | A new interceptor holds the given validator and starts with an empty in-progress set. |
| `Interceptor.ValidationInterceptor.TryEnter` | dbc4java/src/main/java/org/uniknow/agiledev/dbc4java/ValidationInterceptor.java:117 | `add` puts the instance in the set and reports true exactly when it was absent. |
| `Interceptor.ValidationInterceptor.Exit` | dbc4java/src/main/java/org/uniknow/agiledev/dbc4java/ValidationInterceptor.java:136-138 | `remove` takes exactly that instance out of the set. |
| `Interceptor.ValidationInterceptor.CheckInvariants` | dbc4java/src/main/java/org/uniknow/agiledev/dbc4java/ValidationInterceptor.java:114-146 | The in-progress set after the call equals the set before, on every outcome. If the instance was already in progress: no engine call and a normal return. Otherwise the first engine call validates the instance with it in the set. Every nested call runs with it still in the set and never validates it again. The outcome is `InvariantOutcome` of the engine's result, and every validated instance was not in progress before. Every getter the engine ran for the instance that passes the declaring-type check and whose target is neither the instance nor in progress before led to an engine call validating that target, with it added to the set. |
| `Interceptor.ValidationInterceptor.EnteredCheck` | dbc4java/src/main/java/org/uniknow/agiledev/dbc4java/ValidationInterceptor.java:117-138 | An entered check whose first call is its own and whose later calls came from nested checks with the instance in the set, and which followed every gated getter target not in flight, satisfies the guard's contract. |
| `Interceptor.ValidationInterceptor.ValidateInvariants` | dbc4java/src/main/java/org/uniknow/agiledev/dbc4java/ValidationInterceptor.java:215-224 | With no target, or with a runtime class other than the declaring type: no engine call, a normal return and the set unchanged. Otherwise it keeps exactly the contract of `CheckInvariants` on the target. |
| `Interceptor.SkippedGetterNotFollowed` | dbc4java/src/main/java/org/uniknow/agiledev/dbc4java/ValidationInterceptor.java:215-221 | A getter the engine runs while validating `a` whose target's runtime class is not its declaring type is skipped by the gate, so even an engine that keeps constructing objects of that class leads to one engine call, on `a` with `{a}`, and a normal return. |
| `Interceptor.GetterTargetValidated` | dbc4java/src/main/java/org/uniknow/agiledev/dbc4java/ValidationInterceptor.java:114-146 | When validating `a` runs a getter of a different object `b` that passes the declaring-type check, the nested check is not cut off: the engine validates `b` with `{a, b}` in progress. |
| `Interceptor.SelfReferentialInvariant` | dbc4java/src/main/java/org/uniknow/agiledev/dbc4java/ValidationInterceptor.java:114-146 | An object whose validation calls its own getter is validated by the engine only with itself in the set. The nested check makes no engine call, and its one violation is thrown. |

## Left out

- The AspectJ pointcuts (the `@Before` and `@AfterReturning` expressions, including the exclusion of `equals` and `hashCode`) only decide when an advice runs. Each advice is modelled as a function or method called at its join point.
- The Bean Validation engine is a foreign library. Its four entry points are oracle functions in `Validator`. Building the default validator factory is represented by the constructor parameter. The source's `validator` is `private static final`, shared by every interceptor instance; the model makes it a per-instance `const`, which is the same as long as all interceptors are built with the same validator.
- Reflection (`getMethod`, `getConstructor`, `getReturnType`, `getDeclaringType`, `getClass`) is reduced to fields of the join-point records.
- The thread safety of `Collections.synchronizedSet` is not modelled. The guard is modelled sequentially, so concurrent checks of the same instance from several threads are not covered.
- `LOGGER.fine` calls are not modelled, because logging has no effect on outcomes.
- `instance.toString()` is the interceptor's `describe` function. Its result is taken as given.
- A null exception message is not modelled: messages are strings. Calling `getMessage().contains` on null would throw `NullPointerException`.
- Interceptor.ValidationInterceptor.CheckInvariants: is proved only for engines under which the objects reachable through getter executions that pass the fully-constructed gate form a finite set (`Closed` on the ghost `heap`; targets of getters the gate skips are unconstrained, see `SkippedGetterNotFollowed`). Engines whose getters keep constructing new validated objects are excluded (`FreshObjectsNeverClosed`). On those the source's `add` succeeds for each new object (a new object is not `equals` to any in the set under the default `equals`), so the nested checks recurse without bound until the Java stack overflows; the model does not capture that behaviour.
- Interceptor.ValidationInterceptor.CheckInvariants: a getter's nested invariant check can throw inside the engine. How the engine reacts to that is the engine's business. The model keeps the oracle's `result` as what `validate` reports, and lets every listed getter run. It also treats any engine exception reaching the catch as a plain `ValidationException`, so a `ConstraintViolationException` caught there is not distinguished.
- junitBdd/src/test/java/org/uniknow/agiledev/junitbdd/internal/domain/StoryStatisticsScenarios.java is not part of this model. The junitBdd BDD runner is a separate component of the repository and is not modelled.

=== FILE: advice.dfy ===
/**
 * The stateless advice of the interceptor: parameter validation before a
 * method or constructor runs, return-value validation after a method returns,
 * and the decision which object (if any) has its invariants checked after an
 * execution. Each decides whether to consult the engine at all and then
 * throws exactly when the engine reports violations.
 */
module Advice {
  import opened Validation

  /** `validateMethodInvocation` consults the engine only for a non-null target
      and method and a non-null, non-empty argument array. */
  predicate ValidatesParameters(jp: MethodCall) {
    jp.target.Some? && jp.routine.Some? && jp.args.Some? && |jp.args.value| > 0
  }

  /** Parameter validation before a method body runs (the precondition check). */
  function ValidateMethodInvocation(jp: MethodCall, v: Validator): (o: Outcome)
    ensures !ValidatesParameters(jp) ==> o == Ok
    ensures ValidatesParameters(jp) ==>
      Reflects(o, v.validateParameters(jp.target.value, jp.routine.value, jp.args.value))
  {
    if ValidatesParameters(jp) then
      Enforce(v.validateParameters(jp.target.value, jp.routine.value, jp.args.value))
    else
      Ok
  }

  /** `after` consults the engine only for a non-null target and a non-null
      method whose return type is not `void`. */
  predicate ValidatesReturnValue(jp: MethodCall) {
    jp.target.Some? && jp.routine.Some? && jp.routine.value.returnType != Void
  }

  /** Return-value validation after a method returned `result` (the postcondition check). */
  function After(jp: MethodCall, result: Value, v: Validator): (o: Outcome)
    ensures !ValidatesReturnValue(jp) ==> o == Ok
    ensures ValidatesReturnValue(jp) ==>
      Reflects(o, v.validateReturnValue(jp.target.value, jp.routine.value, result))
  {
    if jp.target.Some? then
      if jp.routine.Some? && jp.routine.value.returnType != Void then
        Enforce(v.validateReturnValue(jp.target.value, jp.routine.value, result))
      else
        Ok
    else
      Ok
  }

  /** Constructor parameter validation: no gate, the engine is always consulted. */
  function ValidateConstructorParameters(jp: ConstructorCall, v: Validator): (o: Outcome)
    ensures Reflects(o, v.validateConstructorParameters(jp.ctor, jp.args))
    ensures o.ConstraintViolation? <==>
      var r := v.validateConstructorParameters(jp.ctor, jp.args);
      r.Violations? && r.violations != {}
  {
    Enforce(v.validateConstructorParameters(jp.ctor, jp.args))
  }

  /** The object whose invariants `validateInvariants` checks after an
      execution: the target, when there is one and its runtime class is the
      declaring type; `None` otherwise. The test skips an object still inside
      a superclass constructor, so it is not checked before it is fully built,
      and also an inherited, non-overridden method executed on a subclass
      instance, whose declaring type is the superclass. */
  function InvariantTarget(jp: Execution): (t: Option<Instance>)
    ensures t.Some? <==> jp.target.Some? && jp.target.value.cls == jp.declaringType
    ensures t.Some? ==> t.value == jp.target.value
  {
    if jp.target.Some? && jp.target.value.cls == jp.declaringType then jp.target else None
  }

  /** A skipped parameter or return-value check does not depend on the engine
      at all: any two validators give the same normal return. */
  lemma SkippedChecksIgnoreEngine(jp: MethodCall, result: Value, v1: Validator, v2: Validator)
    ensures !ValidatesParameters(jp) ==>
      ValidateMethodInvocation(jp, v1) == ValidateMethodInvocation(jp, v2) == Ok
    ensures !ValidatesReturnValue(jp) ==>
      After(jp, result, v1) == After(jp, result, v2) == Ok
  {
  }

  /** A void method is never return-value checked, whatever its target and result. */
  lemma VoidResultNeverValidated(target: Instance, m: Method, args: Option<seq<Value>>, result: Value, v: Validator)
    requires m.returnType == Void
    ensures After(MethodCall(Some(target), Some(m), args), result, v) == Ok
  {
  }
}

=== FILE: interceptor.dfy ===
/**
 * The interceptor object and its one piece of state: the set of instances
 * whose invariants are being validated right now. Validating an instance's
 * invariants makes the engine call the instance's getters; each getter is an
 * intercepted execution after which invariants are validated again, so
 * without the set an invariant check would re-enter itself forever.
 */
module Interceptor {
  import opened Validation
  import opened Text
  import opened Advice

  /** Diagnostic code of the engine's exception for a property path it cannot access. */
  const AmbiguousPathCode := "HV000090"

  const AmbiguityPrefix := "Unable to validate post conditions for "
  const AmbiguitySuffix := ". Possibly due to post conditions on 'property' getters which are not a class member."

  /** How an invariant check ends once the engine has answered for the instance
      described by `description`: violations are enforced as for the other
      advice; an engine exception carrying the HV000090 code is rethrown as a
      new exception that names the instance and keeps the original as its
      cause; any other engine exception propagates unchanged. */
  function InvariantOutcome(description: string, r: EngineResult): (o: Outcome)
    ensures r.Violations? ==> Reflects(o, r)
    ensures r.EngineError? && !Contains(r.error.message, AmbiguousPathCode) ==> Reflects(o, r)
    ensures r.EngineError? && Contains(r.error.message, AmbiguousPathCode) ==>
      && o.ValidationError?
      && o.error.cause == Some(r.error)
      && |AmbiguityPrefix| <= |o.error.message| && o.error.message[..|AmbiguityPrefix|] == AmbiguityPrefix
      && Contains(o.error.message, description)
    ensures o.ConstraintViolation? <==> r.Violations? && r.violations != {}
  {
    match r
    case Violations(_) => Enforce(r)
    case EngineError(e) =>
      if Contains(e.message, AmbiguousPathCode) then
        ContainsInfix(AmbiguityPrefix, description, AmbiguitySuffix);
        ValidationError(ValidationException(AmbiguityPrefix + description + AmbiguitySuffix, Some(e)))
      else
        ValidationError(e)
  }

  /** Whatever surrounds the HV000090 code in the engine's message, the
      exception is rewrapped with the original as its cause. */
  lemma AmbiguousPathRewrapped(description: string, before: string, after: string, cause: Option<ValidationException>)
    ensures var e := ValidationException(before + AmbiguousPathCode + after, cause);
      var o := InvariantOutcome(description, EngineError(e));
      o.ValidationError? && o.error.cause == Some(e)
  {
    ContainsInfix(before, AmbiguousPathCode, after);
  }

  /** One call of the engine's `validate`, with the in-progress set at that moment. */
  datatype ValidateCall = ValidateCall(instance: Instance, inProgress: set<Instance>)

  /** Every getter the engine calls while validating a live object, when its
      execution passes the fully-constructed gate, asks for the invariants of
      a live object. Getters the gate skips may run on any object. */
  ghost predicate Closed(v: Validator, heap: set<Instance>) {
    forall y :: y in heap ==> TargetsWithin(v.validate(y).getters, heap)
  }

  ghost predicate TargetsWithin(points: seq<Execution>, heap: set<Instance>) {
    forall p :: p in points && InvariantTarget(p).Some? ==> InvariantTarget(p).value in heap
  }

  /** Marking one more live object as in progress leaves fewer live objects to mark. */
  lemma RemainingShrinks(heap: set<Instance>, before: set<Instance>, x: Instance)
    requires x in heap && x !in before
    ensures |heap - (before + {x})| < |heap - before|
  {
    assert heap - (before + {x}) == (heap - before) - {x};
    assert x in heap - before;
  }

  /** An engine whose getter on each object of class `c` returns a newly
      constructed object of that class: validating object `n` runs a getter
      whose execution, and the constructor execution inside it, lead to an
      invariant check of object `n + 1`. */
  function FreshObjectValidator(c: ClassName): (v: Validator)
    ensures forall n: nat :: Execution(Some(Instance(n + 1, c)), c) in v.validate(Instance(n, c)).getters
  {
    Validator(
      (y: Instance) => EngineRun([Execution(Some(Instance(y.id + 1, y.cls)), y.cls)], Violations({})),
      (t: Instance, m: Method, args: seq<Value>) => Violations({}),
      (t: Instance, m: Method, result: Value) => Violations({}),
      (k: Constructor, args: Option<seq<Value>>) => Violations({}))
  }

  /** A heap closed under that engine holds every object of the chain. */
  lemma {:induction false} ChainInHeap(c: ClassName, heap: set<Instance>, n: nat)
    requires Instance(0, c) in heap && Closed(FreshObjectValidator(c), heap)
    ensures Instance(n, c) in heap
  {
    if n > 0 {
      ChainInHeap(c, heap, n - 1);
      var v := FreshObjectValidator(c);
      assert TargetsWithin(v.validate(Instance(n - 1, c)).getters, heap);
      assert Execution(Some(Instance(n, c)), c) in v.validate(Instance(n - 1, c)).getters;
    }
  }

  /** The first `k` objects of the chain are `k` distinct objects. */
  lemma {:induction false} ChainPrefixSize(c: ClassName, k: nat)
    ensures |set n: nat | n < k :: Instance(n, c)| == k
  {
    if k > 0 {
      ChainPrefixSize(c, k - 1);
      var shorter := set n: nat | n < k - 1 :: Instance(n, c);
      assert (set n: nat | n < k :: Instance(n, c)) == shorter + {Instance(k - 1, c)};
      assert Instance(k - 1, c) !in shorter;
    }
  }

  /** A heap closed under that engine holds the first `k` objects of the chain. */
  lemma ChainPrefixInHeap(c: ClassName, heap: set<Instance>, k: nat)
    requires Instance(0, c) in heap && Closed(FreshObjectValidator(c), heap)
    ensures (set n: nat | n < k :: Instance(n, c)) <= heap
  {
    forall y | y in (set n: nat | n < k :: Instance(n, c)) ensures y in heap {
      ChainInHeap(c, heap, y.id);
    }
  }

  lemma SubsetSize(small: set<Instance>, large: set<Instance>)
    requires small <= large
    ensures |small| <= |large|
  {
    assert large == small + (large - small);
  }

  /** No finite set of live objects is closed under an engine whose getters keep
      constructing new validated objects, so such engines fall outside what
      `CheckInvariants` is proved (and able) to terminate on. */
  lemma FreshObjectsNeverClosed(c: ClassName, heap: set<Instance>)
    ensures Instance(0, c) in heap ==> !Closed(FreshObjectValidator(c), heap)
  {
    if Instance(0, c) in heap && Closed(FreshObjectValidator(c), heap) {
      ChainPrefixInHeap(c, heap, |heap| + 1);
      ChainPrefixSize(c, |heap| + 1);
      SubsetSize(set n: nat | n < |heap| + 1 :: Instance(n, c), heap);
    }
  }

  /** Each of the first `k` getters in `points` whose execution passes the gate
      and whose target is not in `inFlight` led to an engine call validating
      that target, with the target added to `inFlight`. */
  ghost predicate NestedFollowed(inFlight: set<Instance>, points: seq<Execution>, k: int, calls: seq<ValidateCall>)
    requires 0 <= k <= |points|
  {
    forall j :: 0 <= j < k && InvariantTarget(points[j]).Some? && InvariantTarget(points[j]).value !in inFlight ==>
      ValidateCall(InvariantTarget(points[j]).value, inFlight + {InvariantTarget(points[j]).value}) in calls
  }

  class ValidationInterceptor {
    /** The engine, built once for the interceptor. */
    const validator: Validator
    /** `toString()` of an instance. */
    const describe: Instance -> string
    /** The finite set of live objects, the only ones the engine can reach. */
    ghost const heap: set<Instance>
    /** The instances whose invariant check is in flight. */
    var inProgress: set<Instance>

    ghost predicate Valid()
      reads this
    {
      inProgress <= heap && Closed(validator, heap)
    }

    constructor (validator: Validator, describe: Instance -> string, ghost heap: set<Instance>)
      requires Closed(validator, heap)
      ensures Valid()
      ensures this.validator == validator && this.describe == describe && this.heap == heap
      ensures inProgress == {}
    {
      this.validator := validator;
      this.describe := describe;
      this.heap := heap;
      inProgress := {};
    }

    /** Every call in `calls` validated an instance that was not in progress
        before, while that instance was in the set together with all of `before`. */
    ghost predicate GuardedCalls(before: set<Instance>, calls: seq<ValidateCall>) {
      forall c :: c in calls ==>
        c.instance in heap && c.instance !in before && before + {c.instance} <= c.inProgress
    }

    /** What an invariant check of `x` starting with in-progress set `before` did:
        if `x` was already in progress, nothing (no engine call, normal return);
        otherwise its first engine call validated `x` with `x` added to the set,
        every later (nested) call ran with `x` still in the set and never on `x`
        again, and the outcome is decided by the engine's result for `x`. */
    ghost predicate CheckedOnce(before: set<Instance>, x: Instance, outcome: Outcome, calls: seq<ValidateCall>) {
      && (x in before ==> outcome == Ok && calls == [])
      && (x !in before ==>
            && |calls| > 0
            && calls[0] == ValidateCall(x, before + {x})
            && (forall i :: 0 < i < |calls| ==> calls[i].instance != x && x in calls[i].inProgress)
            && NestedFollowed(before + {x}, validator.validate(x).getters, |validator.validate(x).getters|, calls)
            && outcome == InvariantOutcome(describe(x), validator.validate(x).result))
      && GuardedCalls(before, calls)
    }

    /** `Set.add`: marks `x` as in progress; true when it was not yet. */
    method TryEnter(x: Instance) returns (added: bool)
      requires Valid() && x in heap
      modifies this
      ensures Valid()
      ensures added <==> x !in old(inProgress)
      ensures inProgress == old(inProgress) + {x}
    {
      added := x !in inProgress;
      inProgress := inProgress + {x};
    }

    /** `Set.remove`: ends the in-progress mark of `x`. */
    method Exit(x: Instance)
      requires Valid()
      modifies this
      ensures Valid()
      ensures inProgress == old(inProgress) - {x}
    {
      inProgress := inProgress - {x};
    }

    /** Validates the invariants of `x` unless a check of `x` is already in
        flight; the in-progress set is restored on every way out. */
    method CheckInvariants(x: Instance) returns (outcome: Outcome, calls: seq<ValidateCall>)
      requires Valid() && x in heap
      modifies this
      decreases |heap - inProgress|, 0
      ensures Valid()
      ensures inProgress == old(inProgress)
      ensures CheckedOnce(old(inProgress), x, outcome, calls)
    {
      var added := TryEnter(x);
      if !added {
        return Ok, [];
      }
      ghost var before := old(inProgress);
      RemainingShrinks(heap, before, x);
      var run := validator.validate(x);
      calls := [ValidateCall(x, inProgress)];
      var i := 0;
      while i < |run.getters|
        invariant 0 <= i <= |run.getters|
        invariant Valid()
        invariant inProgress == before + {x}
        invariant |calls| > 0 && calls[0] == ValidateCall(x, before + {x})
        invariant GuardedCalls(before + {x}, calls[1..])
        invariant NestedFollowed(before + {x}, run.getters, i, calls)
      {
        GetterOnLiveObject(x, i);
        var _, nested := ValidateInvariants(run.getters[i]);
        NestedCallsAppended(before + {x}, calls, nested);
        NestedCallRecorded(before + {x}, run.getters, i, calls, nested);
        calls := calls + nested;
        i := i + 1;
      }
      Exit(x);
      outcome := InvariantOutcome(describe(x), run.result);
      EnteredCheck(before, x, outcome, calls);
    }

    /** A getter the engine calls while validating a live object, if it passes
        the gate, asks for the invariants of a live object. */
    lemma GetterOnLiveObject(x: Instance, i: int)
      requires Valid() && x in heap && 0 <= i < |validator.validate(x).getters|
      ensures var p := validator.validate(x).getters[i];
        InvariantTarget(p).Some? ==> InvariantTarget(p).value in heap
    {
      assert TargetsWithin(validator.validate(x).getters, heap);
      assert validator.validate(x).getters[i] in validator.validate(x).getters;
    }

    /** Appending the calls of one more nested check keeps the nested calls guarded. */
    lemma NestedCallsAppended(inFlight: set<Instance>, calls: seq<ValidateCall>, nested: seq<ValidateCall>)
      requires |calls| > 0
      requires GuardedCalls(inFlight, calls[1..]) && GuardedCalls(inFlight, nested)
      ensures GuardedCalls(inFlight, (calls + nested)[1..])
    {
      assert (calls + nested)[1..] == calls[1..] + nested;
    }

    /** The calls of one more nested check, which validated its gated target
        first when that target was not in flight, extend the followed getters
        by one. */
    lemma NestedCallRecorded(inFlight: set<Instance>, points: seq<Execution>, i: int, calls: seq<ValidateCall>, nested: seq<ValidateCall>)
      requires 0 <= i < |points|
      requires NestedFollowed(inFlight, points, i, calls)
      requires InvariantTarget(points[i]).Some? && InvariantTarget(points[i]).value !in inFlight ==>
        |nested| > 0 && nested[0] == ValidateCall(InvariantTarget(points[i]).value, inFlight + {InvariantTarget(points[i]).value})
      ensures NestedFollowed(inFlight, points, i + 1, calls + nested)
    {
      forall j | 0 <= j < i + 1 && InvariantTarget(points[j]).Some? && InvariantTarget(points[j]).value !in inFlight
        ensures ValidateCall(InvariantTarget(points[j]).value, inFlight + {InvariantTarget(points[j]).value}) in calls + nested
      {
        if j < i {
          assert ValidateCall(InvariantTarget(points[j]).value, inFlight + {InvariantTarget(points[j]).value}) in calls;
        } else {
          assert (calls + nested)[|calls|] == nested[0];
        }
      }
    }

    /** The calls of an entered check of `x` (its own first, then those of the
        nested checks, all made with `x` in the set) are those `CheckedOnce` allows. */
    lemma EnteredCheck(before: set<Instance>, x: Instance, outcome: Outcome, calls: seq<ValidateCall>)
      requires x in heap && x !in before
      requires |calls| > 0 && calls[0] == ValidateCall(x, before + {x})
      requires GuardedCalls(before + {x}, calls[1..])
      requires outcome == InvariantOutcome(describe(x), validator.validate(x).result)
      requires NestedFollowed(before + {x}, validator.validate(x).getters, |validator.validate(x).getters|, calls)
      ensures CheckedOnce(before, x, outcome, calls)
    {
      forall i | 0 < i < |calls|
        ensures calls[i].instance != x && x in calls[i].inProgress
      {
        assert calls[i] in calls[1..];
      }
      forall c | c in calls
        ensures c.instance in heap && c.instance !in before && before + {c.instance} <= c.inProgress
      {
        if c != calls[0] {
          assert c in calls[1..];
        }
      }
    }

    /** After an execution: checks the target's invariants when the target is
        fully constructed; does nothing otherwise. */
    method ValidateInvariants(jp: Execution) returns (outcome: Outcome, calls: seq<ValidateCall>)
      requires Valid() && (InvariantTarget(jp).Some? ==> InvariantTarget(jp).value in heap)
      modifies this
      decreases |heap - inProgress|, 1
      ensures Valid()
      ensures inProgress == old(inProgress)
      ensures GuardedCalls(old(inProgress), calls)
      ensures InvariantTarget(jp).None? ==> outcome == Ok && calls == []
      ensures InvariantTarget(jp).Some? ==> CheckedOnce(old(inProgress), InvariantTarget(jp).value, outcome, calls)
    {
      var t := InvariantTarget(jp);
      if t.Some? {
        outcome, calls := CheckInvariants(t.value);
      } else {
        outcome, calls := Ok, [];
      }
    }
  }

  /** An object whose invariant refers to one of its own getters: validating it
      runs that getter, whose execution asks for the object's invariants again.
      The nested check is cut off by the guard, so the engine is called once,
      the single violation is thrown, and nothing is left in progress. */
  method SelfReferentialInvariant(a: Instance, v: Violation) returns (outcome: Outcome, calls: seq<ValidateCall>)
    ensures outcome == ConstraintViolation({v})
    ensures |calls| > 0 && calls[0] == ValidateCall(a, {a})
    ensures forall c :: c in calls ==> c.instance == a
    ensures forall i :: 0 < i < |calls| ==> calls[i].instance != a
  {
    var validator := Validator(
      (y: Instance) => EngineRun([Execution(Some(y), y.cls)], Violations({v})),
      (t: Instance, m: Method, args: seq<Value>) => Violations({}),
      (t: Instance, m: Method, result: Value) => Violations({}),
      (c: Constructor, args: Option<seq<Value>>) => Violations({}));
    var interceptor := new ValidationInterceptor(validator, (y: Instance) => "a", {a});
    outcome, calls := interceptor.CheckInvariants(a);
    assert interceptor.inProgress == {};
    assert {} + {a} == {a};
    assert interceptor.CheckedOnce({}, a, outcome, calls);
  }

  /** An object `a` of class `A` whose validation runs a getter declared in
      `Base` on an object of a subclass `B`, under an engine whose getters on
      `B` objects keep constructing new ones. The gate skips that getter, so
      the `B` objects are never validated: the check of `a` ends after one
      engine call on `a`, with a normal return. */
  method SkippedGetterNotFollowed(a: Instance) returns (outcome: Outcome, calls: seq<ValidateCall>)
    requires a.cls == "A"
    ensures outcome == Ok
    ensures |calls| > 0 && calls[0] == ValidateCall(a, {a})
    ensures forall c :: c in calls ==> c.instance == a
  {
    var validator := Validator(
      (y: Instance) =>
        if y.cls == "A" then EngineRun([Execution(Some(Instance(0, "B")), "Base")], Violations({}))
        else EngineRun([Execution(Some(Instance(y.id + 1, y.cls)), y.cls)], Violations({})),
      (t: Instance, m: Method, args: seq<Value>) => Violations({}),
      (t: Instance, m: Method, result: Value) => Violations({}),
      (c: Constructor, args: Option<seq<Value>>) => Violations({}));
    assert InvariantTarget(Execution(Some(Instance(0, "B")), "Base")).None?;
    var interceptor := new ValidationInterceptor(validator, (y: Instance) => "a", {a});
    outcome, calls := interceptor.CheckInvariants(a);
    assert interceptor.inProgress == {};
    assert {} + {a} == {a};
    assert interceptor.CheckedOnce({}, a, outcome, calls);
  }

  /** An object `a` whose validation runs a getter of a different, fully
      constructed object `b`: the nested check is not cut off, so the engine
      validates `b` with both objects in the set. */
  method GetterTargetValidated(a: Instance, b: Instance) returns (outcome: Outcome, calls: seq<ValidateCall>)
    requires a != b
    ensures outcome == Ok
    ensures |calls| > 0 && calls[0] == ValidateCall(a, {a})
    ensures ValidateCall(b, {a, b}) in calls
  {
    var validator := Validator(
      (y: Instance) =>
        if y == a then EngineRun([Execution(Some(b), b.cls)], Violations({}))
        else EngineRun([], Violations({})),
      (t: Instance, m: Method, args: seq<Value>) => Violations({}),
      (t: Instance, m: Method, result: Value) => Violations({}),
      (c: Constructor, args: Option<seq<Value>>) => Violations({}));
    var interceptor := new ValidationInterceptor(validator, (y: Instance) => "a", {a, b});
    outcome, calls := interceptor.CheckInvariants(a);
    assert interceptor.inProgress == {};
    assert {} + {a} == {a} && {a} + {b} == {a, b};
    assert interceptor.CheckedOnce({}, a, outcome, calls);
    assert InvariantTarget(validator.validate(a).getters[0]) == Some(b);
  }
}

=== FILE: text.dfy ===
/** Substring search, as `String.contains` performs it on an exception message. */
module Text {

  /** `sub` occurs in `s` starting at offset `i`. */
  predicate OccursAt(s: string, sub: string, i: nat) {
    i + |sub| <= |s| && s[i..i + |sub|] == sub
  }

  /** Whether `sub` occurs somewhere in `s`. */
  function Contains(s: string, sub: string): (r: bool)
    ensures r ==> |sub| <= |s|
    decreases |s|
  {
    if |s| < |sub| then false
    else if s[..|sub|] == sub then true
    else Contains(s[1..], sub)
  }

  /** The search finds `sub` exactly when it occurs at some offset. */
  lemma {:induction false} ContainsIff(s: string, sub: string)
    ensures Contains(s, sub) <==> exists i: nat :: OccursAt(s, sub, i)
    decreases |s|
  {
    if |s| < |sub| {
    } else if s[..|sub|] == sub {
      assert OccursAt(s, sub, 0);
    } else {
      ContainsIff(s[1..], sub);
      if Contains(s[1..], sub) {
        var j: nat :| OccursAt(s[1..], sub, j);
        assert s[1..][j..j + |sub|] == s[j + 1..j + 1 + |sub|];
        assert OccursAt(s, sub, j + 1);
      } else {
        forall i: nat ensures !OccursAt(s, sub, i) {
          if i == 0 {
            assert s[i..i + |sub|] == s[..|sub|];
          } else if i + |sub| <= |s| {
            assert s[1..][i - 1..i - 1 + |sub|] == s[i..i + |sub|];
            assert !OccursAt(s[1..], sub, i - 1);
          }
        }
      }
    }
  }

  /** A message built around `sub` contains it, whatever surrounds it. */
  lemma ContainsInfix(prefix: string, sub: string, suffix: string)
    ensures Contains(prefix + sub + suffix, sub)
  {
    var s := prefix + sub + suffix;
    assert s[|prefix|..|prefix| + |sub|] == sub;
    assert OccursAt(s, sub, |prefix|);
    ContainsIff(s, sub);
  }
}

=== FILE: validation.dfy ===
/**
 * The values the interceptor works with: intercepted objects and join points
 * (reflection reduced to plain fields), constraint violations, the exceptions
 * of the bean-validation API, and the validation engine as an injected oracle.
 */
module Validation {

  datatype Option<+T> = None | Some(value: T)

  type ClassName = string

  /** An intercepted object. Two instances are the same key of the in-progress
      set exactly when they are equal values (the set is a hash set, so this
      stands for `equals`). `cls` is the object's runtime class. */
  datatype Instance = Instance(id: nat, cls: ClassName)

  /** An argument or return value as the engine sees it. */
  datatype Value = Null | Ref(instance: Instance) | Primitive(bits: int)

  datatype ReturnType = Void | Returns(name: ClassName)

  /** What `getMethod()` yields for a method signature. */
  datatype Method = Method(name: string, declaringType: ClassName, returnType: ReturnType)

  /** What `getConstructor()` yields for a constructor signature. */
  datatype Constructor = Constructor(declaringType: ClassName, parameterTypes: seq<ClassName>)

  /** Join point of a method execution whose parameters or result carry
      constraints; a `None` stands for a null target, method (`routine`) or argument array. */
  datatype MethodCall = MethodCall(target: Option<Instance>, routine: Option<Method>, args: Option<seq<Value>>)

  /** Join point of a constructor execution with constrained parameters. */
  datatype ConstructorCall = ConstructorCall(ctor: Constructor, args: Option<seq<Value>>)

  /** Join point after which invariants are validated: the target and the
      declaring type of the executed method or constructor. */
  datatype Execution = Execution(target: Option<Instance>, declaringType: ClassName)

  /** One failed constraint: the property, parameter or return path and its message. */
  datatype Violation = Violation(path: string, message: string)

  /** A `ValidationException` with its message and optional cause. */
  datatype ValidationException = ValidationException(message: string, cause: Option<ValidationException>)

  /** What one call into the engine produces: a violation set, or a thrown
      `ValidationException`. */
  datatype EngineResult = Violations(violations: set<Violation>) | EngineError(error: ValidationException)

  /** What `validate(instance)` does: while evaluating the instance's constraints
      the engine calls the getters in `getters` (each an intercepted execution
      after which the invariant advice runs), and then yields `result`. */
  datatype EngineRun = EngineRun(getters: seq<Execution>, result: EngineResult)

  /** The validator the interceptor holds, one oracle per engine entry point. */
  datatype Validator = Validator(
    validate: Instance -> EngineRun,
    validateParameters: (Instance, Method, seq<Value>) -> EngineResult,
    validateReturnValue: (Instance, Method, Value) -> EngineResult,
    validateConstructorParameters: (Constructor, Option<seq<Value>>) -> EngineResult)

  /** How an advice ends: a normal return, a thrown `ConstraintViolationException`
      carrying its violations, or a thrown `ValidationException`. */
  datatype Outcome = Ok | ConstraintViolation(violations: set<Violation>) | ValidationError(error: ValidationException)

  /** The outcome passes on what the engine reported: normal return exactly for
      an empty violation set, a constraint violation carrying exactly the
      engine's set, and the engine's own exception unchanged. */
  ghost predicate Reflects(o: Outcome, r: EngineResult) {
    && (o.Ok? <==> r == Violations({}))
    && (o.ConstraintViolation? ==> r == Violations(o.violations))
    && (o.ValidationError? ==> r == EngineError(o.error))
  }

  /** `Reflects` leaves no choice: each engine result has one reflecting outcome. */
  lemma ReflectsUnique(o1: Outcome, o2: Outcome, r: EngineResult)
    requires Reflects(o1, r) && Reflects(o2, r)
    ensures o1 == o2
  {
    match r
    case Violations(vs) =>
      if vs == {} {
        assert o1.Ok? && o2.Ok?;
      } else {
        assert o1.ConstraintViolation? && o2.ConstraintViolation?;
      }
    case EngineError(e) =>
      assert o1.ValidationError? && o2.ValidationError?;
  }

  /** Throws a `ConstraintViolationException` when the engine returned a
      non-empty violation set; an engine exception propagates unchanged. */
  function Enforce(r: EngineResult): (o: Outcome)
    ensures Reflects(o, r)
    ensures o.ConstraintViolation? <==> r.Violations? && r.violations != {}
    ensures o.ConstraintViolation? ==> o.violations != {}
  {
    match r
    case Violations(vs) => if vs == {} then Ok else ConstraintViolation(vs)
    case EngineError(e) => ValidationError(e)
  }
}
